=== FILE: README.md ===
# leeHooks: async-action lifecycle and smart data fetching, modelled in Dafny

This project models the two hooks of leeHooks as pure state machines and proves
properties about them.

- **`useAsyncState`** (`async_state.dfy`, `async_render.dfy`). The model covers:
  - the reducer over `{status, data, error}` and its four action types;
  - the derived `isPending`/`isError`/`isSuccess` flags;
  - the `startAction` executor, which dispatches START and then SUCCESS or ERROR with a normalised message, and re-throws on failure;
  - which alternative `RenderPending`, `RenderSuccess`, `RenderError` and the unified `Renderer` select.
- **`useSmartData`** (`smart_data.dfy`, `smart_data_props.dfy`). The model is a `World` made of the process-wide cache (`map<string, Value>`) and one hook instance. The hook holds `data`, `loading` and `error`. It also holds the abort-controller bookkeeping:
  - `current` is the controller the hook's ref holds;
  - `aborted` is the set of controllers that were aborted;
  - `inFlight` maps each unsettled request to the url, method and body it was sent with;
  - a generation counter issues fresh tokens.

  Events are `Mount`, `Refetch`, `Focus`, `MutateData`, `SetData`, `Settle`, `ChangeUrl` and `Unmount`. `Settle(t, transport)` is the network answering request `t`. A request whose controller was aborted before it settled always comes out as an `AbortError`, because aborting rejects both `fetch` and `response.json()`.

Supporting modules:
- `js_value.dfy` holds JavaScript values, truthiness, and the "function or plain value" alternative.
- `decimal.dfy` renders a status code the way the template literal `HTTP ${status}` does.
- `optional.dfy` holds `Option`.

The network, `JSON` and the framework's scheduling are not modelled. Each state setter is an atomic update. The environment picks the order in which requests settle and the way each one settles. These choices arrive as event parameters.

## Behaviour of the code as written

The model follows the code. The header comment of `src/useSmartData.js` advertises "Optimistic UI updates" and "Request cancelation". In these places the code behaves differently from what those words suggest, or from what a caller might assume:

- `mutate` sends its write with the hook's configured `method`, which defaults to `"GET"`. It does not use a dedicated write method. Under the Fetch Standard (section 5.4, the `Request` constructor) a `GET` or `HEAD` request with a non-null body is refused with a `TypeError` before anything is sent. `fetch` then returns a promise that has already rejected. So with the default method, every `mutate` whose next value is truthy fails: nothing reaches the server, and when the rejection is handled `error` becomes that `TypeError`, `onError` is called, the cache is untouched, and an optimistic value stays on screen (`MutateDefaultsToGet`). The handling runs as a microtask, after any hook call made in the same synchronous task. So `mutate(v); refetch()` ends with the `TypeError` shown and `loading` false while the refetch is still live (`RefusedWriteOutlivesRefetch`).
- `fetchData` catches every transport failure itself. An optimistic `mutate` whose write fails therefore keeps the optimistic value, and the rollback in `mutate` does not run (`OptimisticFailedWriteKeepsGuess`).
- The `finally` of a superseded request sets `loading` to false while the newer request is still in flight (`SupersededSettlementClearsLoading`).
- With `auto` left on and no url, `loading` starts true. No event short of a url change ever clears it (`AutoWithoutUrlStaysLoading`).
- An empty error message is falsy. `RenderError` then renders nothing, while `Renderer` still applies the error alternative (`EmptyMessageRenderersDisagree`).
- Initial `data` uses `cache.get(url) || initialData`. A cached falsy value such as `0` or `""` is ignored in favour of `initialData` (`SmartData.Create`).
- Overlapping `startAction` calls are not cancelled. The call that settles last decides the state, even if it was started first (`OverlappingCallsLastSettlementWins`).

## Model

| member | source | states |
|---|---|---|
| AsyncState.Initial | src/useAsyncState.js:35-40 | The initial state has the requested status with null data and null error, so it satisfies the lifecycle invariant for every initial status |
| AsyncState.Reduce | src/useAsyncState.js:19-32 | A recognised action yields a state satisfying the invariant. An unrecognised type returns the state unchanged. Each status results exactly from its own action type (START, SUCCESS, ERROR, RESET) or from an unrecognised type applied to that status. SUCCESS carries its payload into data and ERROR into error |
| AsyncState.ActionResults | src/useAsyncState.js:21-28 | From any state: START gives {pending, null, null}; SUCCESS(p) gives {success, p, null}; ERROR(m) gives {error, null, m}; RESET gives {idle, null, null} |
| AsyncState.RecognisedForgetsHistory | src/useAsyncState.js:21-28 | The result of a recognised action does not depend on the state it is applied to |
| AsyncState.ReplayKeepsConsistent | src/useAsyncState.js:19-40 | Across any sequence of dispatches, data is null unless status is success and error is null unless status is error |
| AsyncState.ReplayIsLastRecognised | src/useAsyncState.js:19-32 | After any sequence of dispatches the state is what the last recognised action alone produces, or the start state when no action was recognised |
| AsyncState.FlagsExclusive | src/useAsyncState.js:45-47 | At most one of isPending, isError and isSuccess holds, and none holds exactly when the status is idle |
| AsyncState.StartAction | src/useAsyncState.js:50-64 | The call dispatches START first, which shows {pending, null, null}, and then one settlement action. On resolve it returns the result and leaves {success, result, null}. On reject it re-throws the same value and leaves {error, null, message}: the message is err.message for an Error instance, else "Unexpected error occurred" |
| AsyncState.OverlappingCallsLastSettlementWins | src/useAsyncState.js:50-64 | With two overlapping calls, the state after both settle is the one the last settlement produces, even when that call was started first |
| AsyncRender.RenderPending | src/useAsyncState.js:72-78 | Renders its children exactly when the status is pending |
| AsyncRender.RenderSuccess | src/useAsyncState.js:80-87 | Renders exactly when the status is success and data is not null (undefined data renders). A function child is applied to data |
| AsyncRender.RenderError | src/useAsyncState.js:89-96 | Renders exactly when the status is error and the error is truthy. A function child is applied to the error |
| AsyncRender.Renderer | src/useAsyncState.js:99-109 | Pending selects pending. Error selects the error alternative, applied to the error even when it is falsy. Whenever a granular component renders, Renderer selects the same content. Otherwise, without pending, error or a rendering success, it selects idle |
| AsyncRender.GranularRendersExclusive | src/useAsyncState.js:72-96 | At most one of the three granular components renders for any state |
| AsyncRender.SuccessWithoutDataRendersIdle | src/useAsyncState.js:102-106 | Success with null data falls through to the idle alternative, and RenderSuccess renders nothing |
| AsyncRender.EmptyMessageRenderersDisagree | src/useAsyncState.js:92-103 | After startAction fails with an empty message, RenderError renders nothing while Renderer applies the error alternative to "" |
| Decimal.Show | src/useSmartData.js:56 | A status renders as a non-empty digit string with no leading zero except for 0 itself |
| Decimal.ParseShow | src/useSmartData.js:56 | Reading the rendered status back gives the status |
| Decimal.ShowInjective | src/useSmartData.js:56 | Distinct statuses render differently |
| SmartData.Configure | src/useSmartData.js:17-24 | Absent options take their defaults: method "GET", initialData null, auto true, revalidateOnFocus true. Given options are kept |
| SmartData.HttpError | src/useSmartData.js:56 | The HTTP error is not an AbortError. Its message is "HTTP " followed by digits that read back as the status, with no leading zero except for status 0 |
| SmartData.DefaultMethodIsBodiless | src/useSmartData.js:18-51 | The default method "GET" is not forbidden but may not carry a body, so a request with it is refused exactly when it carries a body |
| SmartData.Classify | src/useSmartData.js:48-67 | A refused request always throws the TypeError, even when it was aborted afterwards. Otherwise an aborted request always throws AbortError. It succeeds exactly when it was neither refused nor aborted, the status is 2xx and the body parsed, and then it yields the parsed body. A non-2xx status throws the HTTP error. A transport rejection throws its own error. A 2xx body that fails to parse throws its read error |
| SmartData.Create | src/useSmartData.js:26-28 | Initial data is the cached value for the url when that is truthy, else initialData. Loading starts as auto. There is no error and no request in flight, and the token invariant holds |
| SmartData.AtMostOneLive | src/useSmartData.js:37-40 | Under the token invariant, at most one in-flight request is not aborted, and it is the current one |
| SmartData.AbortCurrent | src/useSmartData.js:78 | The effect cleanup aborts the current controller, if any, and changes nothing else |
| SmartData.DefaultNull | src/useSmartData.js:34 | A default parameter turns undefined into null and keeps every other argument |
| SmartData.StartFetch | src/useSmartData.js:33-54 | Without a usable url, nothing changes. Otherwise: the previous controller is aborted and a fresh token becomes current; loading is true and the error cleared; data becomes the optimistic value only when that is neither null nor undefined (the parameter defaults to null); a request is recorded with the url, the configured method and the body when truthy, whether or not the Request constructor refuses it; url, options, callback log and cache are kept. The new token is the only live request |
| SmartData.SettleFetch | src/useSmartData.js:55-70 | Every settlement clears loading and retires its token. A refused request, aborted or not, sets the TypeError, keeps data and cache, and logs onError if configured. Otherwise an aborted token changes no data, error, cache or callback log. A live 2xx parsed response writes the cache under the request's own url and sets data, touching no other key, and logs onSuccess if configured. A live non-2xx response sets the HTTP error and leaves data and cache alone. Any other live failure that is not an AbortError (a transport rejection, an unreadable body) sets that error, leaves data and cache alone, and logs onError if configured. A failure named AbortError changes nothing but loading. The cache changes only through a live request that was not refused; the error and the callback log only through a live or a refused one; the error never becomes an AbortError |
| SmartData.Mutate | src/useSmartData.js:91-98 | Data ends as next = updater(data) or the literal when optimistic, else stays as it was, and the cache is untouched. Without a usable url nothing else changes. With one, the previous controller is aborted, a fresh token becomes current, loading is set and the error cleared, and a request carrying next as its body (when truthy) with the configured method is recorded as the only live one; url, options and callback log are kept |
| SmartData.AutoFetch | src/useSmartData.js:76-79 | The mount effect changes nothing unless auto is set and the url is usable. Then the previous controller is aborted, a fresh token becomes current, loading is set, the error cleared, data kept, and a body-less request to the url with the configured method becomes the only live one; earlier requests stay in flight, and url, options, callback log and cache are kept |
| SmartData.Step | src/useSmartData.js:33-105 | For every event, the cache changes only when a live request that was not refused settles, and the callback log only when a live or refused request settles. Every settlement clears loading. The options never change, and every request in flight keeps using the configured method. The token invariant and the no-surfaced-cancellation property are preserved |
| SmartData.RunPreserves | src/useSmartData.js:33-105 | Along any feasible trace the token invariant holds, and no AbortError reaches error or onError |
| SmartDataProps.ShowNotFound | src/useSmartData.js:56 | Status 404 yields the message "HTTP 404" |
| SmartDataProps.Refetched | src/useSmartData.js:89 | refetch records one new body-less request to the hook's url with the configured method, the only live one, with data and cache unchanged |
| SmartDataProps.Mutated | src/useSmartData.js:91-98 | mutate issues one new live request to the hook's url with the configured method and next as its body when truthy, advances the token counter, keeps url and options, and shows the next value only when optimistic |
| SmartDataProps.FailedByCurrent | src/useSmartData.js:56-70 | A live request that was not refused, answered with a non-2xx status, sets the HTTP error and clears loading, with data and cache unchanged |
| SmartDataProps.NetworkFailureSurfaces | src/useSmartData.js:63-70 | A live request that was not refused, rejected by the transport with an error other than AbortError, sets that error, clears loading, keeps data and cache, and logs onError if configured |
| SmartDataProps.SettledByCurrent | src/useSmartData.js:57-61 | A live request that was not refused, answered 2xx with a parsed body, sets data and the cache entry of its url |
| SmartDataProps.TwoFetches | src/useSmartData.js:37-40 | After two fetches the first is still in flight but aborted, and only the second is live |
| SmartDataProps.SupersededSettlementWritesNothing | src/useSmartData.js:63-70 | A request that is no longer current and was not refused settles without changing data, error, cache or callbacks, and loading ends false |
| SmartDataProps.OutOfOrderCompletion | src/useSmartData.js:37-70 | With a method that is not forbidden, when fetch B is answered before the earlier fetch A, the final data and cache entry are B's result with no error |
| SmartDataProps.InOrderCompletion | src/useSmartData.js:37-70 | With a method that is not forbidden, when the two fetches are answered in order, the final data and cache entry are again B's result |
| SmartDataProps.SupersededSettlementClearsLoading | src/useSmartData.js:68-70 | The superseded request's settlement leaves loading false while the newer request is still live |
| SmartDataProps.NotFoundEndToEnd | src/useSmartData.js:49-70 | With a method that is not forbidden, a fetch of "/items" answered 404 ends with loading false, error "HTTP 404", and data and cache as before the call |
| SmartDataProps.SharedCacheInitialData | src/useSmartData.js:26 | After the current, unrefused request succeeds with a truthy result, any instance created later for that url starts with that result |
| SmartDataProps.OptimisticFailedWriteKeepsGuess | src/useSmartData.js:91-103 | An optimistic mutate whose write is not refused and gets a non-2xx status ends with the optimistic value, the HTTP error and loading false. No rollback happens |
| SmartDataProps.OptimisticWriteTakesServerResult | src/useSmartData.js:91-98 | An optimistic mutate whose write is not refused and succeeds ends with the server's result in data and in the cache |
| SmartDataProps.MutateDefaultsToGet | src/useSmartData.js:18-98 | Without a method option, mutate on a fresh hook records a GET to the url carrying next as its body when truthy, and that request is refused exactly when next is truthy. Then, however it settles, the TypeError is set, loading is false, the cache is untouched, the next value is shown only when optimistic, and onError is logged if configured |
| SmartDataProps.RefusalSurfaces | src/useSmartData.js:63-70 | A refused request settles, aborted or not, with the TypeError set, loading false, data and cache kept, and onError logged if configured |
| SmartDataProps.RefusedWriteOutlivesRefetch | src/useSmartData.js:33-98 | A refused mutate followed at once by refetch ends, once the refused request settles, with the TypeError shown, loading false and the cache kept, while the refetch is the only live request |
| SmartDataProps.ForbiddenMethodNeverFetches | src/useSmartData.js:18-54 | With a method the Request constructor forbids, along any trace the cache never changes and every request in flight is refused |
| SmartDataProps.NoUrlNeverFetches | src/useSmartData.js:35-77 | Without a usable url and with nothing in flight, no event other than a url change issues a request, writes the cache or changes loading |
| SmartDataProps.AutoWithoutUrlStaysLoading | src/useSmartData.js:20-35 | With auto at its default and no url, loading is true and stays true through any trace without a url change |
| SmartDataProps.CreatedHookTraces | src/useSmartData.js:26-105 | From a freshly created hook along any feasible trace: at most one request is live, it is the current one, and cancellations never surface as errors |

## Left out

- Framework plumbing (`useReducer`, `useState`, `useRef`, `useCallback`, `useMemo`, effect dependency arrays) is left out because it is scheduling, not logic. Each setter or dispatch is an atomic update. `mutate` reads the hook's current `data`; a closure left stale between renders is not modelled.
- `fetch`, HTTP transport, headers, `JSON.stringify` and `response.json()` are foreign I/O. They appear only as the `Transport` parameter of `Settle`, with an opaque parsed result.
- Of the `Request` constructor's checks, only the forbidden methods and a body on `GET` or `HEAD` are modelled, with method names compared case-insensitively over ASCII. A method that is not a valid HTTP token is also refused by the standard; that case is not modelled.
- A truthy body is taken to serialise to a string. `JSON.stringify` returning `undefined` (for a function) or throwing (for a cyclic object) is not modelled.
- The window focus subscription is left out as subscription plumbing. Its effect is the `Focus` event, which fetches when `revalidateOnFocus` is set. Re-subscribing when `fetchData` changes is not modelled.
- Option changes between renders other than the url (method, callbacks, `auto`) are not modelled.
- `console.error` logging in `startAction` is a side effect with no state.
- The `onSuccess`/`onError` callbacks are recorded only as invoked or not. A callback that throws is not modelled. So `fetchData` never rejects in the model, and the rollback branch of `mutate` is not modelled. It is reachable only when a callback throws: `onError` throwing anything, or `onSuccess` throwing `null` or `undefined`, so that reading `err.name` in the `catch` throws.
- Errors that are not objects are not modelled, because `Transport` carries `JsError` records. If a `null` or `undefined` were thrown, the `err.name` read in `fetchData`'s catch would itself throw. A thrown string, number or boolean has `err.name` undefined, so `setError` and `onError` would receive the primitive.
- Promise interleaving inside one request is left out. Each settlement is atomic: an abort before `response.json()` resolves makes the request reject with `AbortError`, and the code after the last `await` runs as one microtask. A refused request settles at a time the environment picks, so the model allows more orderings than the microtask queue does, never fewer.
- Only one hook instance is modelled. Several instances writing the shared cache (the last write wins) are not. Cache sharing is shown only by creating a later instance from the cache an earlier one left.
- `auto`, `revalidateOnFocus` and `mutate`'s `optimistic` are modelled as booleans. The source tests their truthiness, and `useState(auto)` stores the raw value of `auto` as `loading`.
- A caller-supplied initial status outside the four statuses is left out. `Status` has exactly four values.
- JavaScript numbers are integers here, without NaN or -0. The url is a string or absent.
- JSX rendering is left out. The render components are modelled only by which alternative they select.
- `test-package.js` is left out. It is a packaging smoke test that only does I/O.

=== FILE: async_render.dfy ===
/**
 * Which alternative the conditional render components of `useAsyncState`
 * select for a given lifecycle state. Only the selection is modelled; the
 * selected value stands for whatever the view layer would render.
 */
module AsyncRender {
  import opened JsValue
  import opened AsyncState

  /** What a render component returns: `null`, or some content. */
  datatype Rendered<A> = Nothing | Node(content: A)

  /** `RenderPending`: its children while pending, otherwise nothing. */
  function RenderPending<A>(s: State, children: A): (r: Rendered<A>)
    ensures r.Node? <==> s.status == Pending
    ensures r.Node? ==> r.content == children
  {
    if IsPending(s) then Node(children) else Nothing
  }

  /** `RenderSuccess`: only on success with `data !== null` (so `undefined` data
      does render); a function child is applied to the data. */
  function RenderSuccess<A>(s: State, children: Alt<A>): (r: Rendered<A>)
    ensures r.Node? <==> s.status == Success && s.data != Null
    ensures r.Node? ==> r.content == Apply(children, s.data)
  {
    if !IsSuccess(s) || s.data == Null then Nothing else Node(Apply(children, s.data))
  }

  /** `RenderError`: only on error with a truthy `error` (an empty message
      renders nothing); a function child is applied to the error. */
  function RenderError<A>(s: State, children: Alt<A>): (r: Rendered<A>)
    ensures r.Node? <==> s.status == Error && Truthy(s.error)
    ensures r.Node? ==> r.content == Apply(children, s.error)
  {
    if !IsError(s) || !Truthy(s.error) then Nothing else Node(Apply(children, s.error))
  }

  /** The unified `Renderer`: pending, then error, then success with non-null
      data, and idle for everything else. */
  function Renderer<A>(s: State, idle: A, pending: A, success: Alt<A>, error: Alt<A>): (r: A)
    ensures s.status == Pending ==> r == pending
    ensures s.status == Error ==> r == Apply(error, s.error)
    ensures RenderPending(s, pending).Node? ==> r == pending
    ensures RenderSuccess(s, success).Node? ==> r == RenderSuccess(s, success).content
    ensures RenderError(s, error).Node? ==> r == RenderError(s, error).content
    ensures s.status != Pending && s.status != Error && RenderSuccess(s, success).Nothing? ==> r == idle
  {
    if IsPending(s) then pending
    else if IsError(s) then Apply(error, s.error)
    else if IsSuccess(s) && s.data != Null then Apply(success, s.data)
    else idle
  }

  /** The granular components never render together: at most one is non-null. */
  lemma GranularRendersExclusive<A>(s: State, p: A, succ: Alt<A>, err: Alt<A>)
    ensures RenderPending(s, p).Node? ==> RenderSuccess(s, succ).Nothing? && RenderError(s, err).Nothing?
    ensures RenderSuccess(s, succ).Node? ==> RenderError(s, err).Nothing?
  {
  }

  /** Success with null data falls through to the idle alternative. */
  lemma SuccessWithoutDataRendersIdle<A>(idle: A, pending: A, success: Alt<A>, error: Alt<A>)
    ensures Renderer(State(Success, Null, Null), idle, pending, success, error) == idle
    ensures RenderSuccess(State(Success, Null, Null), success).Nothing?
  {
  }

  /** An empty error message: `RenderError` renders nothing while `Renderer`
      still selects the error alternative. */
  lemma EmptyMessageRenderersDisagree<A>(idle: A, pending: A, success: Alt<A>, error: Alt<A>)
    ensures RenderError(StartAction(State(Idle, Null, Null), Rejected(ErrorInstance(""))).state, error).Nothing?
    ensures Renderer(StartAction(State(Idle, Null, Null), Rejected(ErrorInstance(""))).state,
                     idle, pending, success, error) == Apply(error, Str(""))
  {
  }
}

=== FILE: async_state.dfy ===
/**
 * The async-action lifecycle of `useAsyncState`: a reducer over
 * `{status, data, error}` driven by four action types, the status flags
 * derived from it, and the `startAction` executor that dispatches a START
 * and then a SUCCESS or ERROR for the callback's settlement.
 */
module AsyncState {
  import opened JsValue

  /** The four lifecycle states ("idle", "pending", "success", "error"). */
  datatype Status = Idle | Pending | Success | Error

  const START: string := "START"
  const SUCCESS: string := "SUCCESS"
  const ERROR: string := "ERROR"
  const RESET: string := "RESET"

  /** A dispatched action: its `type` string and its `payload` (`Undefined` when absent). */
  datatype Action = Action(kind: string, payload: Value)

  predicate Recognised(kind: string) {
    kind == START || kind == SUCCESS || kind == ERROR || kind == RESET
  }

  datatype State = State(status: Status, data: Value, error: Value)

  /** The lifecycle invariant: `data` is null unless the status is success and
      `error` is null unless the status is error (so idle and pending carry neither). */
  predicate Consistent(s: State) {
    && (s.status != Success ==> s.data == Null)
    && (s.status != Error ==> s.error == Null)
  }

  /** The state `useReducer` starts from, for the caller-supplied initial status. */
  function Initial(initialStatus: Status): (s: State)
    ensures s.status == initialStatus
    ensures s.data == Null && s.error == Null
    ensures Consistent(s)
  {
    State(initialStatus, Null, Null)
  }

  /** The reducer. A recognised action replaces the whole state; any other
      action type leaves it as it was. */
  function Reduce(s: State, a: Action): (r: State)
    ensures Recognised(a.kind) ==> Consistent(r)
    ensures !Recognised(a.kind) ==> r == s
    ensures r.status == Pending <==> a.kind == START || (!Recognised(a.kind) && s.status == Pending)
    ensures r.status == Idle <==> a.kind == RESET || (!Recognised(a.kind) && s.status == Idle)
    ensures r.status == Success <==> a.kind == SUCCESS || (!Recognised(a.kind) && s.status == Success)
    ensures r.status == Error <==> a.kind == ERROR || (!Recognised(a.kind) && s.status == Error)
    ensures a.kind == SUCCESS ==> r.data == a.payload
    ensures a.kind == ERROR ==> r.error == a.payload
  {
    if a.kind == START then State(Pending, Null, Null)
    else if a.kind == SUCCESS then State(Success, a.payload, Null)
    else if a.kind == ERROR then State(Error, Null, a.payload)
    else if a.kind == RESET then State(Idle, Null, Null)
    else s
  }

  /** What each recognised action produces, whatever the state before it. */
  lemma ActionResults(s: State, p: Value)
    ensures Reduce(s, Action(START, p)) == State(Pending, Null, Null)
    ensures Reduce(s, Action(SUCCESS, p)) == State(Success, p, Null)
    ensures Reduce(s, Action(ERROR, p)) == State(Error, Null, p)
    ensures Reduce(s, Action(RESET, p)) == State(Idle, Null, Null)
  {
  }

  /** A recognised action forgets the history: its result does not depend on the prior state. */
  lemma RecognisedForgetsHistory(s1: State, s2: State, a: Action)
    requires Recognised(a.kind)
    ensures Reduce(s1, a) == Reduce(s2, a)
  {
  }

  /** The state after dispatching `acts` in order, starting from `s`. */
  function Replay(s: State, acts: seq<Action>): State
    decreases |acts|
  {
    if |acts| == 0 then s else Reduce(Replay(s, acts[..|acts| - 1]), acts[|acts| - 1])
  }

  /** The lifecycle invariant holds after every sequence of dispatches. */
  lemma {:induction false} ReplayKeepsConsistent(s: State, acts: seq<Action>)
    requires Consistent(s)
    ensures Consistent(Replay(s, acts))
    decreases |acts|
  {
    if |acts| > 0 {
      ReplayKeepsConsistent(s, acts[..|acts| - 1]);
    }
  }

  /** Index of the last recognised action in `acts`, or -1 when there is none. */
  function LastRecognised(acts: seq<Action>): (i: int)
    ensures -1 <= i < |acts|
    ensures i >= 0 ==> Recognised(acts[i].kind)
    ensures forall j :: i < j < |acts| ==> !Recognised(acts[j].kind)
    decreases |acts|
  {
    if |acts| == 0 then -1
    else if Recognised(acts[|acts| - 1].kind) then |acts| - 1
    else LastRecognised(acts[..|acts| - 1])
  }

  /** The visible state after a sequence of dispatches is decided by the last
      recognised action alone, or is the starting state when there is none. */
  lemma {:induction false} ReplayIsLastRecognised(s: State, acts: seq<Action>)
    ensures LastRecognised(acts) < 0 ==> Replay(s, acts) == s
    ensures LastRecognised(acts) >= 0 ==> Replay(s, acts) == Reduce(s, acts[LastRecognised(acts)])
    decreases |acts|
  {
    if |acts| > 0 {
      var init := acts[..|acts| - 1];
      ReplayIsLastRecognised(s, init);
      if Recognised(acts[|acts| - 1].kind) {
        RecognisedForgetsHistory(Replay(s, init), s, acts[|acts| - 1]);
      } else {
        assert LastRecognised(acts) == LastRecognised(init);
      }
    }
  }

  // --- Derived flags ---

  predicate IsPending(s: State) { s.status == Pending }
  predicate IsError(s: State) { s.status == Error }
  predicate IsSuccess(s: State) { s.status == Success }

  /** At most one flag holds, and none holds exactly when the status is idle. */
  lemma FlagsExclusive(s: State)
    ensures !(IsPending(s) && IsError(s))
    ensures !(IsPending(s) && IsSuccess(s))
    ensures !(IsError(s) && IsSuccess(s))
    ensures !IsPending(s) && !IsError(s) && !IsSuccess(s) <==> s.status == Idle
  {
  }

  // --- startAction ---

  /** A thrown value: an `Error` instance with its message, or anything else. */
  datatype Thrown = ErrorInstance(message: string) | NonError(value: Value)

  /** How the awaited callback settled. */
  datatype Settlement = Resolved(result: Value) | Rejected(reason: Thrown)

  /** How the `startAction` promise settles for its caller. */
  datatype Completion = Returned(value: Value) | Rethrown(reason: Thrown)

  /** One `startAction` call: the actions it dispatched, the state they leave, its completion. */
  datatype Execution = Execution(dispatched: seq<Action>, state: State, completion: Completion)

  const FALLBACK_MESSAGE: string := "Unexpected error occurred"

  function FailureMessage(reason: Thrown): string {
    match reason
    case ErrorInstance(m) => m
    case NonError(_) => FALLBACK_MESSAGE
  }

  /** The action dispatched once the callback has settled. */
  function SettlementAction(outcome: Settlement): Action {
    match outcome
    case Resolved(v) => Action(SUCCESS, v)
    case Rejected(t) => Action(ERROR, Str(FailureMessage(t)))
  }

  /** `startAction(callback)` run to completion, the callback settling as `outcome`. */
  function StartAction(s: State, outcome: Settlement): (e: Execution)
    ensures |e.dispatched| == 2
    ensures e.dispatched[0] == Action(START, Undefined)
    ensures Replay(s, e.dispatched[..1]) == State(Pending, Null, Null)
    ensures e.state == Replay(s, e.dispatched)
    ensures Consistent(e.state)
    ensures outcome.Resolved? ==>
              e.completion == Returned(outcome.result) && e.state == State(Success, outcome.result, Null)
    ensures outcome.Rejected? ==>
              e.completion == Rethrown(outcome.reason) && e.state.status == Error && e.state.data == Null
    ensures outcome.Rejected? && outcome.reason.ErrorInstance? ==>
              e.state.error == Str(outcome.reason.message)
    ensures outcome.Rejected? && outcome.reason.NonError? ==>
              e.state.error == Str(FALLBACK_MESSAGE)
  {
    var acts := [Action(START, Undefined), SettlementAction(outcome)];
    assert acts[..1][..0] == [];
    assert acts[..|acts| - 1] == acts[..1];
    var completion := match outcome
      case Resolved(v) => Returned(v)
      case Rejected(t) => Rethrown(t);
    Execution(acts, Reduce(Reduce(s, acts[0]), acts[1]), completion)
  }

  /** Two overlapping calls: neither cancels the other, so whichever settles
      last decides the visible state, even when it was started first. */
  lemma OverlappingCallsLastSettlementWins(s: State, first: Settlement, second: Settlement)
    ensures Replay(s, [Action(START, Undefined), Action(START, Undefined),
                       SettlementAction(second), SettlementAction(first)])
            == StartAction(s, first).state
  {
    var acts := [Action(START, Undefined), Action(START, Undefined),
                 SettlementAction(second), SettlementAction(first)];
    ReplayIsLastRecognised(s, acts);
    RecognisedForgetsHistory(s, Reduce(s, acts[0]), acts[3]);
  }
}

=== FILE: decimal.dfy ===
/**
 * Decimal rendering of a non-negative integer, as a template literal
 * `${n}` renders a number, and its inverse.
 */
module Decimal {

  predicate IsDigit(c: char) {
    '0' <= c <= '9'
  }

  predicate AllDigits(s: string) {
    forall i :: 0 <= i < |s| ==> IsDigit(s[i])
  }

  function DigitChar(d: nat): (c: char)
    requires d < 10
    ensures IsDigit(c)
  {
    ('0' as int + d) as char
  }

  function DigitValue(c: char): (d: nat)
    requires IsDigit(c)
    ensures d < 10
    ensures DigitChar(d) == c
  {
    c as int - '0' as int
  }

  /** The shortest decimal numeral for `n`: digits only, no leading zero. */
  function Show(n: nat): (s: string)
    ensures |s| >= 1 && AllDigits(s)
    ensures s[0] == '0' <==> n == 0
    decreases n
  {
    if n < 10 then [DigitChar(n)] else Show(n / 10) + [DigitChar(n % 10)]
  }

  /** The value of a numeral (the empty numeral reads as 0). */
  function Parse(s: string): nat
    requires AllDigits(s)
    decreases |s|
  {
    if |s| == 0 then 0 else 10 * Parse(s[..|s| - 1]) + DigitValue(s[|s| - 1])
  }

  /** `Show` loses nothing: reading the numeral back gives the number. */
  lemma {:induction false} ParseShow(n: nat)
    ensures Parse(Show(n)) == n
  {
    var s := Show(n);
    if n >= 10 {
      assert s[..|s| - 1] == Show(n / 10);
      ParseShow(n / 10);
    }
  }

  /** `Show` is injective: distinct statuses give distinct numerals. */
  lemma ShowInjective(m: nat, n: nat)
    requires Show(m) == Show(n)
    ensures m == n
  {
    ParseShow(m);
    ParseShow(n);
  }
}

=== FILE: js_value.dfy ===
/**
 * The slice of JavaScript's value model that the two hooks inspect: the
 * distinction between `undefined` and `null`, truthiness, and whether a
 * prop or updater is a function (called) or a plain value (used as is).
 */
module JsValue {

  /** A JavaScript value. Objects, arrays and functions are opaque references;
      numbers are integers (NaN and -0 are not modelled). */
  datatype Value =
    | Undefined
    | Null
    | Bool(b: bool)
    | Num(n: int)
    | Str(s: string)
    | Ref(id: nat)

  /** JavaScript's ToBoolean: `undefined`, `null`, `false`, `0` and `""` are falsy. */
  predicate Truthy(v: Value) {
    match v
    case Undefined => false
    case Null => false
    case Bool(b) => b
    case Num(n) => n != 0
    case Str(s) => s != ""
    case Ref(_) => true
  }

  /** A value that the hooks treat as `typeof x === "function" ? x(arg) : x`. */
  datatype Alt<A> = Call(f: Value -> A) | Plain(a: A)

  function Apply<A>(alt: Alt<A>, arg: Value): A {
    match alt
    case Call(f) => f(arg)
    case Plain(a) => a
  }
}

=== FILE: optional.dfy ===
/** The conventional Some/None wrapper, used for JavaScript's "absent" (`undefined`) options. */
module Optional {

  datatype Option<+T> = None | Some(value: T) {

    /** The wrapped value, or `default` when absent. */
    function GetOr(default: T): T {
      match this
      case Some(v) => v
      case None => default
    }
  }
}

=== FILE: smart_data.dfy ===
/**
 * The request/cache state machine of `useSmartData`, taken apart from the
 * view framework and from `fetch`. A `World` is the process-wide cache plus
 * one hook instance; every state update of the hook is an atomic step, and
 * the network is an environment that settles each issued request exactly
 * once, in any order, through a `Settle` event.
 *
 * Abort controllers are modelled as tokens drawn from a generation counter:
 * `current` is the controller the hook holds, `aborted` the controllers whose
 * `abort()` has been called, and `inFlight` the requests not yet settled,
 * each with the url, method and body it was issued with.
 */
module SmartData {
  import opened Optional
  import opened JsValue
  import Decimal

  type Token = nat

  /** The options object as passed; `None` is an absent (`undefined`) entry. The
      two callbacks are modelled only as present or absent. */
  datatype Options = Options(
    verb: Option<string>,
    initialData: Value,
    auto: Option<bool>,
    onSuccess: bool,
    onError: bool,
    revalidateOnFocus: Option<bool>)

  /** The options after destructuring with defaults. */
  datatype Config = Config(
    verb: string,
    initialData: Value,
    auto: bool,
    onSuccess: bool,
    onError: bool,
    revalidateOnFocus: bool)

  const DEFAULT_METHOD: string := "GET"

  /** Destructuring defaults apply to `undefined` entries only. */
  function Configure(o: Options): (c: Config)
    ensures o.verb.None? ==> c.verb == DEFAULT_METHOD
    ensures o.verb.Some? ==> c.verb == o.verb.value
    ensures c.initialData == (if o.initialData == Undefined then Null else o.initialData)
    ensures c.auto == (o.auto != Some(false))
    ensures c.revalidateOnFocus == (o.revalidateOnFocus != Some(false))
    ensures c.onSuccess == o.onSuccess && c.onError == o.onError
  {
    Config(o.verb.GetOr(DEFAULT_METHOD),
           if o.initialData == Undefined then Null else o.initialData,
           o.auto.GetOr(true),
           o.onSuccess,
           o.onError,
           o.revalidateOnFocus.GetOr(true))
  }

  /** A JavaScript error, by the two fields the hook reads or produces. */
  datatype JsError = JsError(name: string, message: string)

  const ABORT_ERROR: string := "AbortError"

  /** What `fetch` and `response.json()` reject with once their signal is aborted. */
  const AbortRejection: JsError := JsError(ABORT_ERROR, "The operation was aborted.")

  /** The error thrown for a response that is not ok: `new Error(`HTTP ${status}`)`. */
  function HttpError(status: nat): (e: JsError)
    ensures e.name != ABORT_ERROR
    ensures |e.message| > 5 && e.message[..5] == "HTTP "
    ensures Decimal.AllDigits(e.message[5..]) && Decimal.Parse(e.message[5..]) == status
    ensures e.message[5] == '0' ==> |e.message| == 6
  {
    Decimal.ParseShow(status);
    var e := JsError("Error", "HTTP " + Decimal.Show(status));
    assert e.message[5..] == Decimal.Show(status);
    e
  }

  /** `response.ok`: a status in the range 200-299. */
  predicate IsOk(status: nat) {
    200 <= status <= 299
  }

  /** How reading the response body turned out. */
  datatype BodyRead = Parsed(result: Value) | Unreadable(err: JsError)

  /** What the transport did with a request that was not aborted: it responded
      (with a status and a body read), or `fetch` itself rejected. */
  datatype Transport = Responded(status: nat, body: BodyRead) | Failed(err: JsError)

  /** The outcome of the `try` block: a parsed result, or the error it threw. */
  datatype Outcome = Fulfilled(result: Value) | Threw(err: JsError)

  /** The `try` block of `fetchData`. A request the `Request` constructor
      refused has already rejected with its `TypeError` when `fetch` returns, so
      neither a later abort nor the transport changes that. Otherwise aborting
      rejects both `fetch` and `response.json()`, so a request aborted before it
      settled throws `AbortError` whatever the transport would have done. */
  function Classify(refused: bool, aborted: bool, tr: Transport): (o: Outcome)
    ensures refused ==> o == Threw(RequestError)
    ensures !refused && aborted ==> o == Threw(AbortRejection)
    ensures o.Fulfilled? <==> !refused && !aborted && tr.Responded? && IsOk(tr.status) && tr.body.Parsed?
    ensures o.Fulfilled? ==> o.result == tr.body.result
    ensures !refused && !aborted && tr.Responded? && !IsOk(tr.status) ==> o == Threw(HttpError(tr.status))
    ensures !refused && !aborted && tr.Failed? ==> o == Threw(tr.err)
    ensures !refused && !aborted && tr.Responded? && IsOk(tr.status) && tr.body.Unreadable? ==>
              o == Threw(tr.body.err)
  {
    if refused then Threw(RequestError)
    else if aborted then Threw(AbortRejection)
    else match tr
      case Failed(err) => Threw(err)
      case Responded(status, body) =>
        if !IsOk(status) then Threw(HttpError(status))
        else match body
          case Parsed(v) => Fulfilled(v)
          case Unreadable(err) => Threw(err)
  }

  /** An issued request: the url and method captured when it was sent, and
      the serialised body (`None` when the body was falsy and `null` was sent). */
  datatype Request = Request(url: string, verb: string, body: Option<Value>)

  /** ASCII upper case, as the Fetch Standard compares method names byte-case-insensitively. */
  function UpperChar(c: char): char {
    if 'a' <= c <= 'z' then (c as int - 32) as char else c
  }

  function Upper(s: string): string {
    seq(|s|, i requires 0 <= i < |s| => UpperChar(s[i]))
  }

  /** What `body ? JSON.stringify(body) : null` sends: the body exactly when it is truthy. */
  function BodyOf(body: Value): Option<Value> {
    if Truthy(body) then Some(body) else None
  }

  /** The Fetch Standard's `Request` constructor (section 5.4, step 25 onwards)
      throws a `TypeError`, so the promise `fetch` returns is already rejected
      and nothing is sent, when the method is forbidden (`CONNECT`, `TRACE`,
      `TRACK`) or when it is `GET` or `HEAD` and the init carries a non-null body. */
  predicate Refused(r: Request) {
    ForbiddenMethod(r.verb) || (r.body.Some? && BodilessMethod(r.verb))
  }

  predicate ForbiddenMethod(verb: string) {
    Upper(verb) in {"CONNECT", "TRACE", "TRACK"}
  }

  predicate BodilessMethod(verb: string) {
    Upper(verb) in {"GET", "HEAD"}
  }

  /** The default method is `GET` in any spelling the standard compares. */
  lemma DefaultMethodIsBodiless()
    ensures BodilessMethod(DEFAULT_METHOD) && !ForbiddenMethod(DEFAULT_METHOD)
    ensures forall r: Request | r.verb == DEFAULT_METHOD :: Refused(r) <==> r.body.Some?
  {
    assert Upper(DEFAULT_METHOD) == DEFAULT_METHOD by {
      assert forall i | 0 <= i < |DEFAULT_METHOD| :: UpperChar(DEFAULT_METHOD[i]) == DEFAULT_METHOD[i];
    }
  }

  /** The `TypeError` that rejected `fetch`; its message is up to the host. */
  const RequestError: JsError := JsError("TypeError", "Failed to construct 'Request'.")

  /** A callback invocation, kept so that "was it invoked" can be stated. */
  datatype Notice = SuccessNotified(result: Value) | ErrorNotified(err: JsError)

  datatype Hook = Hook(
    url: Option<string>,
    config: Config,
    data: Value,
    loading: bool,
    error: Option<JsError>,
    current: Option<Token>,
    aborted: set<Token>,
    inFlight: map<Token, Request>,
    next: Token,
    notices: seq<Notice>)

  datatype World = World(cache: map<string, Value>, hook: Hook)

  /** `if (!url) return`: the url is neither absent nor empty. */
  predicate HasUrl(h: Hook) {
    h.url.Some? && h.url.value != ""
  }

  /** Requests whose controller has not been aborted. */
  function Live(h: Hook): set<Token> {
    set t | t in h.inFlight.Keys && t !in h.aborted
  }

  /** The bookkeeping invariant of the abort tokens: every token was issued by
      the counter, and every in-flight request other than the current one has
      been aborted. */
  predicate Invariant(h: Hook) {
    && (forall t :: t in h.inFlight ==> t < h.next)
    && (forall t :: t in h.aborted ==> t < h.next)
    && (h.current.Some? ==> h.current.value < h.next)
    && (h.current.None? ==> h.inFlight == map[] && h.aborted == {})
    && (forall t :: t in h.inFlight && t !in h.aborted ==> h.current == Some(t))
  }

  /** At most one request is live, and it is the current one. */
  lemma AtMostOneLive(h: Hook)
    requires Invariant(h)
    ensures h.current.None? ==> Live(h) == {}
    ensures h.current.Some? ==> Live(h) <= {h.current.value}
  {
  }

  /** Every request in flight was sent with the hook's configured method. */
  predicate MethodsAgree(h: Hook) {
    forall t :: t in h.inFlight ==> h.inFlight[t].verb == h.config.verb
  }

  /** Cancellations never surface: neither the `error` field nor an `onError`
      call ever carries an `AbortError`. */
  predicate NoCancellationSurfaced(h: Hook) {
    && (h.error.Some? ==> h.error.value.name != ABORT_ERROR)
    && (forall i :: 0 <= i < |h.notices| && h.notices[i].ErrorNotified? ==>
          h.notices[i].err.name != ABORT_ERROR)
  }

  /** The first render: `data` is the cached value for the url when that is
      truthy, else `initialData`; `loading` starts as `auto`. */
  function Create(cache: map<string, Value>, url: Option<string>, opts: Options): (h: Hook)
    ensures h.config == Configure(opts) && h.url == url
    ensures h.loading == Configure(opts).auto
    ensures url.Some? && url.value in cache && Truthy(cache[url.value]) ==> h.data == cache[url.value]
    ensures !(url.Some? && url.value in cache && Truthy(cache[url.value])) ==> h.data == Configure(opts).initialData
    ensures h.error.None? && h.current.None? && h.inFlight == map[] && h.notices == []
    ensures Invariant(h) && NoCancellationSurfaced(h)
  {
    var cfg := Configure(opts);
    var cached := if url.Some? && url.value in cache then cache[url.value] else Undefined;
    Hook(url, cfg, if Truthy(cached) then cached else cfg.initialData, cfg.auto,
         None, None, {}, map[], 0, [])
  }

  /** The previous controller, if any, after `abort()` has been called on it. */
  function AbortCurrent(h: Hook): (h': Hook)
    ensures h.current.Some? ==> h'.aborted == h.aborted + {h.current.value}
    ensures h.current.None? ==> h'.aborted == h.aborted
    ensures h' == h.(aborted := h'.aborted)
    ensures Invariant(h) ==> Invariant(h')
  {
    if h.current.Some? then h.(aborted := h.aborted + {h.current.value}) else h
  }

  /** A default parameter `= null`: an `undefined` argument becomes `null`. */
  function DefaultNull(v: Value): (r: Value)
    ensures r != Undefined
    ensures v != Undefined ==> r == v
  {
    if v == Undefined then Null else v
  }

  /** The synchronous part of `fetchData(body, optimisticData)`: abort the previous
      controller, issue a fresh one, mark loading, clear the error, apply the
      optimistic value, and call `fetch`. Both parameters default to `null`, so
      an `undefined` optimistic value leaves `data` alone. A request the
      `Request` constructor refuses is recorded like any other: its promise has
      already rejected, and its `catch` and `finally` run when it settles. */
  function StartFetch(w: World, body: Value, optimistic: Value): (w': World)
    ensures !HasUrl(w.hook) ==> w' == w
    ensures w'.cache == w.cache
    ensures HasUrl(w.hook) ==>
              && w'.hook.current == Some(w.hook.next) && w'.hook.next == w.hook.next + 1
              && w'.hook.aborted == AbortCurrent(w.hook).aborted
              && w'.hook.loading && w'.hook.error.None?
              && w'.hook.data == (if optimistic != Null && optimistic != Undefined then optimistic else w.hook.data)
              && w'.hook.inFlight == w.hook.inFlight[w.hook.next :=
                   Request(w.hook.url.value, w.hook.config.verb, BodyOf(body))]
              && w'.hook.url == w.hook.url && w'.hook.config == w.hook.config
              && w'.hook.notices == w.hook.notices
    ensures Invariant(w.hook) && HasUrl(w.hook) ==>
              w.hook.next !in w.hook.inFlight && Live(w'.hook) == {w.hook.next}
    ensures Invariant(w.hook) ==> Invariant(w'.hook)
    ensures NoCancellationSurfaced(w.hook) ==> NoCancellationSurfaced(w'.hook)
  {
    if !HasUrl(w.hook) then w
    else
      var body, optimistic := DefaultNull(body), DefaultNull(optimistic);
      var h := AbortCurrent(w.hook);
      var t := h.next;
      var req := Request(h.url.value, h.config.verb, BodyOf(body));
      var h' := h.(current := Some(t),
                   next := t + 1,
                   loading := true,
                   error := None,
                   data := if optimistic != Null then optimistic else h.data,
                   inFlight := h.inFlight[t := req]);
      World(w.cache, h')
  }

  /** The continuation of `fetchData` once request `t` settles: on success write
      the cache under the request's own url and set `data`; on an error other
      than `AbortError` set `error`; in every case clear `loading`. A refused
      request settles with its `TypeError` even after it has been aborted. */
  function SettleFetch(w: World, t: Token, tr: Transport): (w': World)
    requires t in w.hook.inFlight
    ensures !w'.hook.loading
    ensures w'.hook.inFlight == w.hook.inFlight - {t}
    ensures Live(w'.hook) == Live(w.hook) - {t}
    ensures w'.hook == w.hook.(data := w'.hook.data, error := w'.hook.error, notices := w'.hook.notices,
                               loading := false, inFlight := w'.hook.inFlight)
    ensures Refused(w.hook.inFlight[t]) ==>
              && w'.cache == w.cache && w'.hook.data == w.hook.data
              && w'.hook.error == Some(RequestError)
              && w'.hook.notices == w.hook.notices +
                   (if w.hook.config.onError then [ErrorNotified(RequestError)] else [])
    ensures !Refused(w.hook.inFlight[t]) && t in w.hook.aborted ==>
              w'.cache == w.cache && w'.hook.data == w.hook.data &&
              w'.hook.error == w.hook.error && w'.hook.notices == w.hook.notices
    ensures !Refused(w.hook.inFlight[t]) && t !in w.hook.aborted && tr.Responded? && IsOk(tr.status) && tr.body.Parsed? ==>
              && w'.cache == w.cache[w.hook.inFlight[t].url := tr.body.result]
              && w'.hook.data == tr.body.result && w'.hook.error == w.hook.error
              && w'.hook.notices == w.hook.notices +
                   (if w.hook.config.onSuccess then [SuccessNotified(tr.body.result)] else [])
    ensures !Refused(w.hook.inFlight[t]) && t !in w.hook.aborted && tr.Responded? && !IsOk(tr.status) ==>
              && w'.cache == w.cache && w'.hook.data == w.hook.data
              && w'.hook.error == Some(HttpError(tr.status))
              && w'.hook.notices == w.hook.notices +
                   (if w.hook.config.onError then [ErrorNotified(HttpError(tr.status))] else [])
    ensures !Refused(w.hook.inFlight[t]) && t !in w.hook.aborted &&
            Classify(false, false, tr).Threw? && Classify(false, false, tr).err.name != ABORT_ERROR ==>
              && w'.cache == w.cache && w'.hook.data == w.hook.data
              && w'.hook.error == Some(Classify(false, false, tr).err)
              && w'.hook.notices == w.hook.notices +
                   (if w.hook.config.onError then [ErrorNotified(Classify(false, false, tr).err)] else [])
    ensures var o := Classify(Refused(w.hook.inFlight[t]), t in w.hook.aborted, tr);
            o.Threw? && o.err.name == ABORT_ERROR ==>
              w'.cache == w.cache && w'.hook.data == w.hook.data &&
              w'.hook.error == w.hook.error && w'.hook.notices == w.hook.notices
    ensures w'.cache != w.cache ==> t in Live(w.hook) && !Refused(w.hook.inFlight[t])
    ensures w'.hook.notices != w.hook.notices ==> t in Live(w.hook) || Refused(w.hook.inFlight[t])
    ensures w'.hook.error != w.hook.error ==>
              && (t in Live(w.hook) || Refused(w.hook.inFlight[t]))
              && w'.hook.error.Some? && w'.hook.error.value.name != ABORT_ERROR
    ensures Invariant(w.hook) ==> Invariant(w'.hook)
    ensures NoCancellationSurfaced(w.hook) ==> NoCancellationSurfaced(w'.hook)
  {
    var h := w.hook;
    var done := h.(loading := false, inFlight := h.inFlight - {t});
    match Classify(Refused(h.inFlight[t]), t in h.aborted, tr)
    case Fulfilled(v) =>
      World(w.cache[h.inFlight[t].url := v],
            done.(data := v, notices := h.notices + if h.config.onSuccess then [SuccessNotified(v)] else []))
    case Threw(err) =>
      if err.name != ABORT_ERROR then
        World(w.cache,
              done.(error := Some(err), notices := h.notices + if h.config.onError then [ErrorNotified(err)] else []))
      else
        World(w.cache, done)
  }

  /** `mutate`'s updater: a function of the current data, or a literal value. */
  datatype Updater = Compute(f: Value -> Value) | Replace(v: Value)

  function NextValue(u: Updater, current: Value): Value {
    match u
    case Compute(f) => f(current)
    case Replace(v) => v
  }

  /** The synchronous part of `mutate(updater, optimistic)`: show the next value
      (optimistic) or keep the previous one, then send the next value as the
      body with the hook's configured method. `fetchData` catches every error
      of its own, so the rollback branch is not reached here. */
  function Mutate(w: World, u: Updater, optimistic: bool): (w': World)
    ensures w'.hook.data == (if optimistic then NextValue(u, w.hook.data) else w.hook.data)
    ensures w'.cache == w.cache
    ensures !HasUrl(w.hook) ==> w'.hook == w.hook.(data := w'.hook.data)
    ensures HasUrl(w.hook) ==>
              && w'.hook.current == Some(w.hook.next) && w'.hook.next == w.hook.next + 1
              && w'.hook.aborted == AbortCurrent(w.hook).aborted
              && w'.hook.loading && w'.hook.error.None?
              && w'.hook.inFlight == w.hook.inFlight[w.hook.next :=
                   Request(w.hook.url.value, w.hook.config.verb, BodyOf(NextValue(u, w.hook.data)))]
              && w'.hook.url == w.hook.url && w'.hook.config == w.hook.config
              && w'.hook.notices == w.hook.notices
    ensures Invariant(w.hook) && HasUrl(w.hook) ==> Live(w'.hook) == {w.hook.next}
    ensures Invariant(w.hook) ==> Invariant(w'.hook)
    ensures NoCancellationSurfaced(w.hook) ==> NoCancellationSurfaced(w'.hook)
  {
    var prev := w.hook.data;
    var nextData := NextValue(u, prev);
    var shown := World(w.cache, w.hook.(data := if optimistic then nextData else prev));
    StartFetch(shown, nextData, if optimistic then nextData else Null)
  }

  /** The mount effect: fetch when `auto` is set and the url is present. */
  function AutoFetch(w: World): (w': World)
    ensures !(w.hook.config.auto && HasUrl(w.hook)) ==> w' == w
    ensures w.hook.config.auto && HasUrl(w.hook) ==>
              && w'.hook.current == Some(w.hook.next) && w'.hook.next == w.hook.next + 1
              && w'.hook.aborted == AbortCurrent(w.hook).aborted
              && w'.hook.loading && w'.hook.error.None? && w'.hook.data == w.hook.data
              && w'.hook.inFlight == w.hook.inFlight[w.hook.next :=
                   Request(w.hook.url.value, w.hook.config.verb, None)]
              && w'.hook.url == w.hook.url && w'.hook.notices == w.hook.notices
    ensures Invariant(w.hook) && w.hook.config.auto && HasUrl(w.hook) ==> Live(w'.hook) == {w.hook.next}
    ensures w'.cache == w.cache && w'.hook.config == w.hook.config
    ensures Invariant(w.hook) ==> Invariant(w'.hook)
    ensures NoCancellationSurfaced(w.hook) ==> NoCancellationSurfaced(w'.hook)
  {
    if w.hook.config.auto && HasUrl(w.hook) then StartFetch(w, Null, Null) else w
  }

  /** The events the hook reacts to. `Settle` is the environment settling an
      in-flight request; `ChangeUrl` re-renders with another url (the effect's
      cleanup aborts, then the effect runs again); `Unmount` runs the cleanup. */
  datatype Event =
    | Mount
    | Refetch
    | Focus
    | MutateData(updater: Updater, optimistic: bool)
    | SetData(value: Value)
    | Settle(token: Token, transport: Transport)
    | ChangeUrl(url: Option<string>)
    | Unmount

  /** A request settles only while it is in flight. */
  predicate Enabled(h: Hook, e: Event) {
    e.Settle? ==> e.token in h.inFlight
  }

  function Step(w: World, e: Event): (w': World)
    requires Enabled(w.hook, e)
    ensures w'.cache != w.cache ==>
              e.Settle? && e.token in Live(w.hook) && !Refused(w.hook.inFlight[e.token])
    ensures w'.hook.notices != w.hook.notices ==>
              e.Settle? && (e.token in Live(w.hook) || Refused(w.hook.inFlight[e.token]))
    ensures e.Settle? ==> !w'.hook.loading
    ensures w'.hook.config == w.hook.config
    ensures MethodsAgree(w.hook) ==> MethodsAgree(w'.hook)
    ensures Invariant(w.hook) ==> Invariant(w'.hook)
    ensures NoCancellationSurfaced(w.hook) ==> NoCancellationSurfaced(w'.hook)
  {
    match e
    case Mount => AutoFetch(w)
    case Refetch => StartFetch(w, Null, Null)
    case Focus => if w.hook.config.revalidateOnFocus then StartFetch(w, Null, Null) else w
    case MutateData(u, optimistic) => Mutate(w, u, optimistic)
    case SetData(v) => World(w.cache, w.hook.(data := v))
    case Settle(t, tr) => SettleFetch(w, t, tr)
    case ChangeUrl(url) =>
      if url == w.hook.url then w
      else AutoFetch(World(w.cache, AbortCurrent(w.hook).(url := url)))
    case Unmount => World(w.cache, AbortCurrent(w.hook))
  }

  /** Every event of `es` is enabled in the state it is applied to. */
  predicate Feasible(w: World, es: seq<Event>)
    decreases |es|
  {
    |es| == 0 || (Enabled(w.hook, es[0]) && Feasible(Step(w, es[0]), es[1..]))
  }

  function Run(w: World, es: seq<Event>): World
    requires Feasible(w, es)
    decreases |es|
  {
    if |es| == 0 then w else Run(Step(w, es[0]), es[1..])
  }

  /** Unfolds one event at the front of a trace. */
  lemma RunCons(w: World, e: Event, rest: seq<Event>)
    requires Enabled(w.hook, e)
    ensures Feasible(w, [e] + rest) <==> Feasible(Step(w, e), rest)
    ensures Feasible(w, [e] + rest) ==> Run(w, [e] + rest) == Run(Step(w, e), rest)
  {
    assert ([e] + rest)[1..] == rest;
  }

  /** The token invariant and the no-surfaced-cancellation property hold after
      every feasible trace from a state where they hold. */
  lemma {:induction false} RunPreserves(w: World, es: seq<Event>)
    requires Feasible(w, es)
    requires Invariant(w.hook) && NoCancellationSurfaced(w.hook)
    ensures Invariant(Run(w, es).hook) && NoCancellationSurfaced(Run(w, es).hook)
    decreases |es|
  {
    if |es| > 0 {
      RunPreserves(Step(w, es[0]), es[1..]);
    }
  }
}

=== FILE: smart_data_props.dfy ===
/**
 * Properties of the `useSmartData` state machine that relate several steps:
 * stale responses, out-of-order completion, the shared cache, `mutate`, and
 * what happens without a url.
 */
module SmartDataProps {
  import opened Optional
  import opened JsValue
  import opened SmartData

  /** Unfolding of two-, three- and four-event traces whose events are each
      enabled in the state the previous ones leave. */
  lemma Unfold2(w: World, e0: Event, e1: Event)
    requires Enabled(w.hook, e0) && Enabled(Step(w, e0).hook, e1)
    ensures Feasible(w, [e0, e1]) && Run(w, [e0, e1]) == Step(Step(w, e0), e1)
  {
    RunCons(Step(w, e0), e1, []);
    assert [e1] + [] == [e1];
    RunCons(w, e0, [e1]);
    assert [e0] + [e1] == [e0, e1];
  }

  lemma Unfold3(w: World, e0: Event, e1: Event, e2: Event)
    requires Enabled(w.hook, e0) && Enabled(Step(w, e0).hook, e1)
    requires Enabled(Step(Step(w, e0), e1).hook, e2)
    ensures Feasible(w, [e0, e1, e2]) && Run(w, [e0, e1, e2]) == Step(Step(Step(w, e0), e1), e2)
  {
    Unfold2(Step(w, e0), e1, e2);
    RunCons(w, e0, [e1, e2]);
    assert [e0] + [e1, e2] == [e0, e1, e2];
  }

  lemma Unfold4(w: World, e0: Event, e1: Event, e2: Event, e3: Event)
    requires Enabled(w.hook, e0) && Enabled(Step(w, e0).hook, e1)
    requires Enabled(Step(Step(w, e0), e1).hook, e2)
    requires Enabled(Step(Step(Step(w, e0), e1), e2).hook, e3)
    ensures Feasible(w, [e0, e1, e2, e3])
    ensures Run(w, [e0, e1, e2, e3]) == Step(Step(Step(Step(w, e0), e1), e2), e3)
  {
    Unfold3(Step(w, e0), e1, e2, e3);
    RunCons(w, e0, [e1, e2, e3]);
    assert [e0] + [e1, e2, e3] == [e0, e1, e2, e3];
  }

  /** The status 404 renders as the message "HTTP 404". */
  lemma ShowNotFound()
    ensures HttpError(404).message == "HTTP 404"
  {
    assert Decimal.Show(4) == "4";
    assert Decimal.Show(40) == Decimal.Show(4) + "0";
    assert Decimal.Show(404) == Decimal.Show(40) + "4";
  }

  /** A request that is no longer the current one settles without touching
      `data`, `error`, the cache or the callbacks; it still clears `loading`. */
  lemma SupersededSettlementWritesNothing(w: World, t: Token, tr: Transport)
    requires Invariant(w.hook)
    requires t in w.hook.inFlight && w.hook.current != Some(t)
    requires !Refused(w.hook.inFlight[t])
    ensures SettleFetch(w, t, tr).cache == w.cache
    ensures SettleFetch(w, t, tr).hook.data == w.hook.data
    ensures SettleFetch(w, t, tr).hook.error == w.hook.error
    ensures SettleFetch(w, t, tr).hook.notices == w.hook.notices
    ensures !SettleFetch(w, t, tr).hook.loading
  {
    assert t in w.hook.aborted;
  }

  /** Two fetches where the later one is answered first: the earlier response,
      arriving last, changes nothing but `loading`; `data` and the cache keep
      the later response. */
  lemma OutOfOrderCompletion(w: World, status: nat, later: Value, earlier: Transport)
    requires Invariant(w.hook) && HasUrl(w.hook) && IsOk(status)
    requires !ForbiddenMethod(w.hook.config.verb)
    ensures var a, b := w.hook.next, w.hook.next + 1;
            var es := [Refetch, Refetch, Settle(b, Responded(status, Parsed(later))), Settle(a, earlier)];
            && Feasible(w, es)
            && Run(w, es).hook.data == later
            && Run(w, es).cache == w.cache[w.hook.url.value := later]
            && Run(w, es).hook.error.None?
            && !Run(w, es).hook.loading
  {
    var a, b := w.hook.next, w.hook.next + 1;
    var w2 := TwoFetches(w);
    var w3 := SettledByCurrent(w2, b, status, later);
    assert Invariant(w3.hook) && a in w3.hook.inFlight && w3.hook.current == Some(b);
    SupersededSettlementWritesNothing(w3, a, earlier);
    Unfold4(w, Refetch, Refetch, Settle(b, Responded(status, Parsed(later))), Settle(a, earlier));
  }

  /** The same two fetches answered in order end in the same visible state. */
  lemma InOrderCompletion(w: World, status: nat, later: Value, earlier: Transport)
    requires Invariant(w.hook) && HasUrl(w.hook) && IsOk(status)
    requires !ForbiddenMethod(w.hook.config.verb)
    ensures var a, b := w.hook.next, w.hook.next + 1;
            var es := [Refetch, Refetch, Settle(a, earlier), Settle(b, Responded(status, Parsed(later)))];
            && Feasible(w, es)
            && Run(w, es).hook.data == later
            && Run(w, es).cache == w.cache[w.hook.url.value := later]
            && Run(w, es).hook.error.None?
  {
    var a, b := w.hook.next, w.hook.next + 1;
    var w2 := TwoFetches(w);
    SupersededSettlementWritesNothing(w2, a, earlier);
    var w3 := Step(w2, Settle(a, earlier));
    assert b in Live(w3.hook) && w3.hook.inFlight[b] == w2.hook.inFlight[b];
    var w4 := SettledByCurrent(w3, b, status, later);
    Unfold4(w, Refetch, Refetch, Settle(a, earlier), Settle(b, Responded(status, Parsed(later))));
  }

  /** Two fetches in a row: the first request is still in flight but aborted,
      and the second is the only live one, sent to the hook's url. */
  lemma TwoFetches(w: World) returns (w2: World)
    requires Invariant(w.hook) && HasUrl(w.hook)
    ensures w2 == Step(Step(w, Refetch), Refetch)
    ensures Invariant(w2.hook) && w.hook.next in w2.hook.inFlight
    ensures w2.hook.current == Some(w.hook.next + 1) && w2.hook.error.None?
    ensures Live(w2.hook) == {w.hook.next + 1}
    ensures w2.hook.inFlight[w.hook.next] == Request(w.hook.url.value, w.hook.config.verb, None)
    ensures w2.hook.inFlight[w.hook.next + 1] == Request(w.hook.url.value, w.hook.config.verb, None)
    ensures w2.cache == w.cache
  {
    var w1 := StartFetch(w, Null, Null);
    assert Invariant(w1.hook) && HasUrl(w1.hook) && w1.hook.next == w.hook.next + 1;
    w2 := StartFetch(w1, Null, Null);
  }

  /** The current request answered with an ok status and a parsed body. */
  lemma SettledByCurrent(w: World, t: Token, status: nat, r: Value) returns (w': World)
    requires t in Live(w.hook) && !Refused(w.hook.inFlight[t]) && IsOk(status)
    ensures w' == Step(w, Settle(t, Responded(status, Parsed(r))))
    ensures w'.hook.data == r && w'.cache == w.cache[w.hook.inFlight[t].url := r]
    ensures w'.hook.error == w.hook.error && w'.hook.current == w.hook.current
    ensures Invariant(w.hook) ==> Invariant(w'.hook)
  {
    w' := SettleFetch(w, t, Responded(status, Parsed(r)));
  }

  /** `refetch()` as a trace step: one new live request, nothing else shown changes. */
  lemma Refetched(w: World) returns (w': World)
    requires Invariant(w.hook) && HasUrl(w.hook)
    ensures w' == Step(w, Refetch)
    ensures Live(w'.hook) == {w.hook.next}
    ensures w'.hook.inFlight == w.hook.inFlight[w.hook.next := Request(w.hook.url.value, w.hook.config.verb, None)]
    ensures w'.hook.data == w.hook.data && w'.cache == w.cache
  {
    w' := StartFetch(w, Null, Null);
  }

  /** `mutate(u, optimistic)` as a trace step. */
  lemma Mutated(w: World, u: Updater, optimistic: bool) returns (w': World)
    requires Invariant(w.hook) && HasUrl(w.hook)
    ensures w' == Step(w, MutateData(u, optimistic))
    ensures Live(w'.hook) == {w.hook.next}
    ensures w'.hook.inFlight[w.hook.next] ==
              Request(w.hook.url.value, w.hook.config.verb, BodyOf(NextValue(u, w.hook.data)))
    ensures Invariant(w'.hook) && w'.hook.url == w.hook.url && w'.hook.config == w.hook.config
    ensures w'.hook.next == w.hook.next + 1
    ensures w'.hook.data == (if optimistic then NextValue(u, w.hook.data) else w.hook.data)
    ensures w'.cache == w.cache
  {
    w' := Mutate(w, u, optimistic);
  }

  /** The current request answered with a status that is not ok. */
  lemma FailedByCurrent(w: World, t: Token, status: nat, body: BodyRead) returns (w': World)
    requires t in Live(w.hook) && !Refused(w.hook.inFlight[t]) && !IsOk(status)
    ensures w' == Step(w, Settle(t, Responded(status, body)))
    ensures w'.hook.error == Some(HttpError(status)) && !w'.hook.loading
    ensures w'.hook.data == w.hook.data && w'.cache == w.cache
  {
    w' := SettleFetch(w, t, Responded(status, body));
  }

  /** The current request rejected by the transport with an error other than
      `AbortError`: the error is surfaced, `data` and the cache are kept. */
  lemma NetworkFailureSurfaces(w: World, t: Token, e: JsError) returns (w': World)
    requires t in Live(w.hook) && !Refused(w.hook.inFlight[t]) && e.name != ABORT_ERROR
    ensures w' == Step(w, Settle(t, Failed(e)))
    ensures w'.hook.error == Some(e) && !w'.hook.loading
    ensures w'.hook.data == w.hook.data && w'.cache == w.cache
    ensures w'.hook.notices == w.hook.notices + (if w.hook.config.onError then [ErrorNotified(e)] else [])
  {
    w' := SettleFetch(w, t, Failed(e));
  }

  /** A refused request settles with its `TypeError`, aborted or not: the
      error is surfaced, `data` and the cache are kept. */
  lemma RefusalSurfaces(w: World, t: Token, tr: Transport) returns (w': World)
    requires t in w.hook.inFlight && Refused(w.hook.inFlight[t])
    ensures w' == Step(w, Settle(t, tr))
    ensures w'.hook.error == Some(RequestError) && !w'.hook.loading
    ensures w'.hook.data == w.hook.data && w'.cache == w.cache
    ensures w'.hook.notices == w.hook.notices + (if w.hook.config.onError then [ErrorNotified(RequestError)] else [])
    ensures Live(w'.hook) == Live(w.hook) - {t}
  {
    w' := SettleFetch(w, t, tr);
  }

  /** Any settlement of an in-flight request, as a trace step. */
  lemma SettledAny(w: World, t: Token, tr: Transport) returns (w': World)
    requires t in w.hook.inFlight
    ensures w' == Step(w, Settle(t, tr))
    ensures Live(w'.hook) == Live(w.hook) - {t} && !w'.hook.loading
  {
    w' := SettleFetch(w, t, tr);
  }

  /** The superseded request's `finally` clears `loading` although the newer
      request is still in flight. */
  lemma SupersededSettlementClearsLoading(w: World, earlier: Transport)
    requires Invariant(w.hook) && HasUrl(w.hook)
    ensures var es := [Refetch, Refetch, Settle(w.hook.next, earlier)];
            && Feasible(w, es)
            && !Run(w, es).hook.loading
            && Live(Run(w, es).hook) == {w.hook.next + 1}
  {
    var a, b := w.hook.next, w.hook.next + 1;
    var w2 := TwoFetches(w);
    var w3 := SettledAny(w2, a, earlier);
    assert a != b;
    assert Live(w3.hook) == {b};
    Unfold3(w, Refetch, Refetch, Settle(a, earlier));
  }

  /** A fetch of "/items" answered with HTTP 404: loading ends, the error reads
      "HTTP 404", and `data` and the cache are as before the call. */
  lemma NotFoundEndToEnd(w: World, body: BodyRead)
    requires Invariant(w.hook) && w.hook.url == Some("/items")
    requires !ForbiddenMethod(w.hook.config.verb)
    ensures var es := [Refetch, Settle(w.hook.next, Responded(404, body))];
            && Feasible(w, es)
            && !Run(w, es).hook.loading
            && Run(w, es).hook.error == Some(JsError("Error", "HTTP 404"))
            && Run(w, es).hook.data == w.hook.data
            && Run(w, es).cache == w.cache
  {
    var n := w.hook.next;
    var w1 := Refetched(w);
    var w2 := FailedByCurrent(w1, n, 404, body);
    ShowNotFound();
    Unfold2(w, Refetch, Settle(n, Responded(404, body)));
  }

  /** Once the current request for a key has succeeded with a truthy result,
      every instance created afterwards for that key starts out showing it. */
  lemma SharedCacheInitialData(w: World, status: nat, r: Value, opts1: Options, opts2: Options)
    requires Invariant(w.hook) && w.hook.current.Some? && w.hook.current.value in w.hook.inFlight
    requires w.hook.current.value !in w.hook.aborted && !Refused(w.hook.inFlight[w.hook.current.value])
    requires IsOk(status) && Truthy(r)
    ensures var t := w.hook.current.value;
            var w' := SettleFetch(w, t, Responded(status, Parsed(r)));
            var key := Some(w.hook.inFlight[t].url);
            && Create(w'.cache, key, opts1).data == r
            && Create(w'.cache, key, opts2).data == r
  {
  }

  /** An optimistic `mutate` whose write is answered with an error status keeps
      the optimistic value: `fetchData` catches the failure itself, so the
      rollback in `mutate` does not run. */
  lemma OptimisticFailedWriteKeepsGuess(w: World, v: Value, status: nat, body: BodyRead)
    requires Invariant(w.hook) && HasUrl(w.hook) && !IsOk(status)
    requires !Refused(Request(w.hook.url.value, w.hook.config.verb, BodyOf(v)))
    ensures var es := [MutateData(Replace(v), true), Settle(w.hook.next, Responded(status, body))];
            && Feasible(w, es)
            && Run(w, es).hook.data == v
            && Run(w, es).hook.error == Some(HttpError(status))
            && !Run(w, es).hook.loading
  {
    var n := w.hook.next;
    var w1 := Mutated(w, Replace(v), true);
    var w2 := FailedByCurrent(w1, n, status, body);
    Unfold2(w, MutateData(Replace(v), true), Settle(n, Responded(status, body)));
  }

  /** An optimistic `mutate` whose write succeeds ends with the server's
      result, which may differ from the optimistic guess. */
  lemma OptimisticWriteTakesServerResult(w: World, u: Updater, status: nat, r: Value)
    requires Invariant(w.hook) && HasUrl(w.hook) && IsOk(status)
    requires !Refused(Request(w.hook.url.value, w.hook.config.verb, BodyOf(NextValue(u, w.hook.data))))
    ensures var es := [MutateData(u, true), Settle(w.hook.next, Responded(status, Parsed(r)))];
            && Feasible(w, es)
            && Run(w, es).hook.data == r
            && Run(w, es).cache == w.cache[w.hook.url.value := r]
  {
    var n := w.hook.next;
    var w1 := Mutated(w, u, true);
    var w2 := SettledByCurrent(w1, n, status, r);
    Unfold2(w, MutateData(u, true), Settle(n, Responded(status, Parsed(r))));
  }

  /** Without a `method` option, `mutate` writes with `GET`. A truthy next value
      is then a body on a `GET`, which the `Request` constructor refuses: nothing
      reaches the server, and whenever the request settles the `TypeError` is
      surfaced, the cache is untouched and the optimistic value stays. A falsy
      next value goes out as a body-less `GET`. */
  lemma MutateDefaultsToGet(cache: map<string, Value>, url: string, opts: Options, u: Updater, optimistic: bool,
                            tr: Transport)
    requires url != "" && opts.verb.None?
    ensures var w := World(cache, Create(cache, Some(url), opts));
            var v := NextValue(u, w.hook.data);
            var es := [MutateData(u, optimistic), Settle(0, tr)];
            && Step(w, MutateData(u, optimistic)).hook.inFlight == map[0 := Request(url, DEFAULT_METHOD, BodyOf(v))]
            && (Refused(Request(url, DEFAULT_METHOD, BodyOf(v))) <==> Truthy(v))
            && Feasible(w, es)
            && (Truthy(v) ==>
                  && Run(w, es).cache == cache
                  && Run(w, es).hook.data == (if optimistic then v else w.hook.data)
                  && Run(w, es).hook.error == Some(RequestError) && !Run(w, es).hook.loading
                  && Run(w, es).hook.notices == (if Configure(opts).onError then [ErrorNotified(RequestError)] else []))
  {
    DefaultMethodIsBodiless();
    var w := World(cache, Create(cache, Some(url), opts));
    var v := NextValue(u, w.hook.data);
    var w1 := Mutated(w, u, optimistic);
    if Truthy(v) {
      var w2 := RefusalSurfaces(w1, 0, tr);
    }
    Unfold2(w, MutateData(u, optimistic), Settle(0, tr));
  }

  /** A refused write followed at once by `refetch()`: the refused request's
      `catch` and `finally` run after `refetch` has started, so they surface the
      `TypeError` and clear `loading` while the refetch is still live. */
  lemma RefusedWriteOutlivesRefetch(w: World, v: Value, tr: Transport)
    requires Invariant(w.hook) && HasUrl(w.hook)
    requires Refused(Request(w.hook.url.value, w.hook.config.verb, BodyOf(v)))
    ensures var n := w.hook.next;
            var es := [MutateData(Replace(v), false), Refetch, Settle(n, tr)];
            && Feasible(w, es)
            && Run(w, es).hook.error == Some(RequestError)
            && !Run(w, es).hook.loading
            && Live(Run(w, es).hook) == {n + 1}
            && Run(w, es).cache == w.cache
  {
    var n := w.hook.next;
    var w3 := RefusedThenRefetched(w, v, tr);
    Unfold3(w, MutateData(Replace(v), false), Refetch, Settle(n, tr));
  }

  /** The three steps of `RefusedWriteOutlivesRefetch`, one at a time. */
  lemma RefusedThenRefetched(w: World, v: Value, tr: Transport) returns (w3: World)
    requires Invariant(w.hook) && HasUrl(w.hook)
    requires Refused(Request(w.hook.url.value, w.hook.config.verb, BodyOf(v)))
    ensures Enabled(Step(Step(w, MutateData(Replace(v), false)), Refetch).hook, Settle(w.hook.next, tr))
    ensures w3 == Step(Step(Step(w, MutateData(Replace(v), false)), Refetch), Settle(w.hook.next, tr))
    ensures w3.hook.error == Some(RequestError) && !w3.hook.loading
    ensures Live(w3.hook) == {w.hook.next + 1} && w3.cache == w.cache
  {
    var n := w.hook.next;
    var w1 := Mutated(w, Replace(v), false);
    var w2 := Refetched(w1);
    assert w2.hook.inFlight[n] == w1.hook.inFlight[n];
    w3 := RefusalSurfaces(w2, n, tr);
    assert {n + 1} - {n} == {n + 1};
  }

  predicate NoUrlChange(es: seq<Event>) {
    forall i :: 0 <= i < |es| ==> !es[i].ChangeUrl?
  }

  /** With no usable url and nothing in flight, no event other than a url
      change issues a request, writes the cache or changes `loading`. */
  lemma {:induction false} NoUrlNeverFetches(w: World, es: seq<Event>)
    requires !HasUrl(w.hook) && w.hook.inFlight == map[]
    requires Feasible(w, es) && NoUrlChange(es)
    ensures Run(w, es).hook.loading == w.hook.loading
    ensures Run(w, es).hook.inFlight == map[]
    ensures Run(w, es).cache == w.cache
    decreases |es|
  {
    if |es| > 0 {
      var w1 := Step(w, es[0]);
      assert w1.hook.loading == w.hook.loading && w1.hook.inFlight == map[] && w1.cache == w.cache;
      assert w1.hook.url == w.hook.url;
      assert NoUrlChange(es[1..]) by {
        forall i | 0 <= i < |es[1..]| ensures !es[1..][i].ChangeUrl? {
          assert es[1..][i] == es[i + 1];
        }
      }
      NoUrlNeverFetches(w1, es[1..]);
    }
  }

  /** With a method the `Request` constructor forbids, every request is refused
      before it is sent: the cache never changes. */
  lemma {:induction false} ForbiddenMethodNeverFetches(w: World, es: seq<Event>)
    requires ForbiddenMethod(w.hook.config.verb) && MethodsAgree(w.hook)
    requires Feasible(w, es)
    ensures Run(w, es).cache == w.cache
    ensures forall t :: t in Run(w, es).hook.inFlight ==> Refused(Run(w, es).hook.inFlight[t])
    decreases |es|
  {
    if |es| > 0 {
      var w1 := Step(w, es[0]);
      assert es[0].Settle? ==> Refused(w.hook.inFlight[es[0].token]);
      ForbiddenMethodNeverFetches(w1, es[1..]);
    }
  }

  /** With `auto` left at its default and no url, `loading` starts true and no
      event short of a url change ever clears it. */
  lemma AutoWithoutUrlStaysLoading(cache: map<string, Value>, url: Option<string>, opts: Options, es: seq<Event>)
    requires url.None? || url == Some("")
    requires opts.auto.None?
    requires Feasible(World(cache, Create(cache, url, opts)), es) && NoUrlChange(es)
    ensures Run(World(cache, Create(cache, url, opts)), es).hook.loading
  {
    NoUrlNeverFetches(World(cache, Create(cache, url, opts)), es);
  }

  /** From a freshly created hook, along every feasible trace: at most one
      request is live, and no `AbortError` ever reaches `error` or `onError`. */
  lemma CreatedHookTraces(cache: map<string, Value>, url: Option<string>, opts: Options, es: seq<Event>)
    requires Feasible(World(cache, Create(cache, url, opts)), es)
    ensures var h := Run(World(cache, Create(cache, url, opts)), es).hook;
            && Invariant(h)
            && NoCancellationSurfaced(h)
            && (h.current.None? ==> Live(h) == {})
            && (h.current.Some? ==> Live(h) <= {h.current.value})
  {
    var w := World(cache, Create(cache, url, opts));
    RunPreserves(w, es);
    AtMostOneLive(Run(w, es).hook);
  }
}
